=== FILE: README.md ===
# lagatrix_api: the authenticated command gateway

lagatrix_api is a FastAPI service. It lets an operator manage a Linux host over HTTP: its
groups, users, crontab entries, and hardware and storage information. Every request carries
a `username` header and a base64 `password` header. The `auth_user` dependency turns these
into a `CommandManager`, a shell context opened as that user. Most endpoints then work the
same way:

1. They check that some path and body fields are not `None`.
2. They call one or two operations of a domain manager (GroupManager, UserManager,
   CrontabManager, GpuManager, CpuManager, RamManager, DiskManager, HostManager).
3. They turn an exception those calls raise into an HTTP status, through an ordered
   `except` list where the first matching clause wins.

The exceptions are these:

- Step 1 is missing in several handlers:
  - the four crontab handlers never check their `cron_job` bodies;
  - `get_groups`, `get_users` and the hardware, storage and host handlers have no fields to
    check;
  - `put_group` checks its body and the body's name, but not its path `group_name`.
- `make_login` calls no manager and has no `except` list. It only greets the context's user.

This project models that decision procedure in Dafny and proves what it answers for every
input:

- **`Errors`** holds:
  - the closed set of exception classes the handlers name (`Failure`);
  - first-match translation through an ordered `except` list (`Translate`);
  - the facts about class order that do not depend on the unknown hierarchy.
- **`Gateway`** holds:
  - the library methods an endpoint calls, with the arguments it passes, in the order made
    (`Call`); building a manager object is not a recorded call;
  - what an endpoint answers (`Exchange`: a reply plus that call trace);
  - the three endpoint shapes: a rejected shape check, one call, and a change followed by
    a re-read.
- **`Dependencies`** models `auth_user` and how FastAPI chains it in front of an endpoint.
- There is one module per endpoint file: `GroupEndpoint`, `UserEndpoint`,
  `CrontabEndpoint`, `GpuEndpoint`, `CpuEndpoint`, `RamEndpoint`, `StorageEndpoint` and
  `HostEndpoint`. Each holds one function per handler, and the handlers' `except` tables as
  constants. The three GPU handlers have the same clauses and share `GpuEndpoint.GpuTable`.
  The handlers whose only clause is `except CommandError` share `Gateway.CommandErrorTable`.
- **`Consistency`** records differences between endpoints that the code really has.

Library code is not part of this model. Each manager call's result is an input,
`Ok(value)` or `Err(kind)`. The values the managers return are type parameters, so "the
manager's value is returned unchanged" is a statement about any value.

**The exception hierarchy.** The hierarchy of the library exception classes is not visible.
The model therefore takes it as a parameter `h`, where `h(a, b)` means "a is a proper
subclass of b". An `except C` clause catches `f` when `f == C` or `h(f, C)`. Some results
hold for every `h`, for example that a clause placed before the CommandError clause wins.
The full status tables assume `Shaped(h)`, which allows only two kinds of edge among the
named classes:

- a library class may derive from `CommandError`;
- `binascii.Error` and `UnicodeDecodeError` derive from `ValueError`, as in Python.

In particular, no named class derives from `Other`. `Other` itself may derive from any class.

Under that assumption, each table agrees with a per-endpoint reference function (`…Status`)
that lists the status of each class. This holds for every named class except
`binascii.Error`, `UnicodeDecodeError` and `Other`. A class the table does not list gets 500
if it derives from CommandError, and propagates otherwise. The two decoding errors are
covered separately, because they derive from ValueError:

- In the four tables that start with `except ValueError` (`post_group`, `put_group`,
  `post_user`, `put_user`), any ValueError subclass is 400 under every hierarchy
  (`ValueErrorFirst`).
- A table that names neither the decoding error nor ValueError lets it propagate
  (`DecodingErrorUncaught`).
- `auth_user` names `binascii.Error` first, so it is always 400 there.

**Behaviour of the code that a reader might not expect, and that the model keeps:**

- Only an absent header (`None`) counts as missing. Empty headers go on to decoding.
- Credentials come only from the `username`/`password` header pair. There is no HTTP Basic
  scheme.
- A failure that no clause catches propagates out of the handler. No `except` clause turns it
  into an HTTPException, so its text never reaches the reply; the model records it as
  `Uncaught`.
- The `AuthenticationError` that `auth_user` catches is imported from Python's
  `multiprocessing` module. It is modelled as its own class.

## Model

| member | source | states |
|---|---|---|
| Errors.Translate | src/api/endpoints/group_endpoint.py:100-112 | An ordered `except` list leaves a failure unhandled exactly when no clause catches it. Otherwise the status is that of the first clause that catches it. |
| Errors.FirstCatchWins | src/api/endpoints/group_endpoint.py:103-112 | If clause i catches the failure and no earlier clause does, the answer is clause i's status, whatever the later clauses say. |
| Errors.DisjointIsLookup | src/api/endpoints/group_endpoint.py:103-112 | When no class derives from another, first-match translation is a plain lookup of the first clause naming the class. |
| Errors.ShapedCatches | src/api/endpoints/group_endpoint.py:103-112 | In a shaped hierarchy, a named non-ValueError-derived class is caught by a clause exactly when the clause names it, or names CommandError and the class derives from CommandError. |
| Errors.ShapedFirstNamed | src/api/endpoints/group_endpoint.py:103-112 | In a shaped hierarchy, the first clause naming a class decides its status, provided no earlier clause names the class or CommandError. |
| Errors.CommandErrorLastIsFallback | src/api/endpoints/group_endpoint.py:103-112 | If only the last clause names CommandError, a named class other than binascii.Error and UnicodeDecodeError keeps its listed status in every shaped hierarchy, even if it derives from CommandError. An unlisted class gets the CommandError status exactly when it derives from CommandError, and propagates otherwise. |
| Errors.DecodingErrorUncaught | src/api/dependencies.py:35-41 | In a shaped hierarchy, binascii.Error or UnicodeDecodeError propagates through any table that names neither it nor ValueError, even one with a CommandError clause. |
| Gateway.Reject | src/api/endpoints/group_endpoint.py:62-63 | A failed shape check is a 400 with its fixed message, and no library call is made. |
| Gateway.Raised | src/api/endpoints/group_endpoint.py:65-70 | A raised failure becomes an HTTP error exactly when some clause catches it. The error has the first catching clause's status and the failure's own text as detail. Otherwise the failure itself propagates. |
| Gateway.Invoke | src/api/endpoints/group_endpoint.py:34-37 | A one-call `try` makes exactly that call. It answers the call's value unchanged with the handler's status, or the failure translated by the handler's table. |
| Gateway.Sequence | src/api/endpoints/group_endpoint.py:100-102 | If the change fails, it is the only call made and its failure is translated. Otherwise the re-read follows, and its value, or its translated failure, is the answer. |
| Gateway.CommandErrorOnly | src/api/endpoints/hardware/cpu_endpoint.py:37-38 | The single clause `except CommandError: 500` answers 500 exactly for CommandError and its subclasses, under every hierarchy. Every other failure propagates. |
| Gateway.Read | src/api/endpoints/hardware/cpu_endpoint.py:35-38 | A read endpoint makes exactly its one call. It answers the value unchanged with 200. A failure is 500 exactly when it is a CommandError or a subclass, and propagates otherwise. |
| Dependencies.AuthUser | src/api/dependencies.py:13-41 | The "Required headers are missing." rejection happens exactly when a header is None. `init` is called exactly when both headers are present and the password base64- and UTF-8-decodes; it gets the username unchanged and the decoded password. A binascii.Error is 400 before any call. The dependency resolves exactly when `init` succeeds, to `init`'s context unchanged. An `init` failure goes through the 400/401/500 list. |
| Dependencies.AuthStatuses | src/api/dependencies.py:36-41 | In every shaped hierarchy, binascii.Error is 400, AuthenticationError 401 and CommandError 500. Another library class is 500 exactly when it derives from CommandError, and propagates otherwise. |
| Dependencies.UnicodeErrorUncaught | src/api/dependencies.py:35-41 | A UTF-8 decoding error is caught by none of the three clauses in any shaped hierarchy. |
| Dependencies.AuthUserDecodeFailures | src/api/dependencies.py:34-41 | In a shaped hierarchy, a UTF-8 error after a valid base64 decode, or the ValueError b64decode raises for non-ASCII text, propagates uncaught, and `init` is not called. |
| Dependencies.AuthUserInitFailures | src/api/dependencies.py:35-41 | In a shaped hierarchy, AuthenticationError from `init` is 401 and CommandError is 500. Any other library class from `init` is 500 when it derives from CommandError, and propagates otherwise. |
| Dependencies.Serve | src/api/endpoints/storage_endpoint.py:24 | A rejected dependency ends the request with its refusal. The endpoint then makes no call. Otherwise the endpoint runs with the resolved context, and its calls follow `init`. |
| Dependencies.RejectedRequestReachesNoManager | src/api/dependencies.py:31-41 | A request whose credentials are refused is refused, and makes no call other than, at most, `CommandManager.init`. |
| GroupEndpoint.GetGroups | src/api/endpoints/group_endpoint.py:19-37 | Makes one `get_groups` call. It returns the list unchanged with 200. A failure is 500 exactly when it is a CommandError, and propagates otherwise. |
| GroupEndpoint.GetGroup | src/api/endpoints/group_endpoint.py:40-70 | A None name is 400 "The group is required." before any call. Otherwise it makes one `get_group(name)` call, whose value is the 200 answer. |
| GroupEndpoint.GetGroupStatuses | src/api/endpoints/group_endpoint.py:67-70 | GroupNotExistError is 404 and CommandError is 500 in every shaped hierarchy. |
| GroupEndpoint.PostGroup | src/api/endpoints/group_endpoint.py:73-112 | A None group or group name is 400 and nothing is added. Otherwise it calls `add_group(group)`; only if that returns does it call `get_group(group.name)`, and it answers that group with 201. |
| GroupEndpoint.PostGroupStatuses | src/api/endpoints/group_endpoint.py:103-112 | ValueError 400, PrivilegesError 403, UserNotExistError 404, GroupExistError 409, CommandError 500, in every shaped hierarchy. |
| GroupEndpoint.PutGroup | src/api/endpoints/group_endpoint.py:115-156 | A None group or group name is 400. Otherwise it calls `edit_group(group_name, group)` with the path name unchecked, then re-reads by the new `group.name`. |
| GroupEndpoint.PutGroupStatuses | src/api/endpoints/group_endpoint.py:147-156 | ValueError 400, PrivilegesError 403, GroupNotExistError 404, GroupExistError 409, CommandError 500. |
| GroupEndpoint.ValueErrorFirst | src/api/endpoints/group_endpoint.py:103-104 | In `post_group` and `put_group` (also lines 147-148), ValueError and every subclass of it are 400 under every hierarchy. |
| GroupEndpoint.AddUserToGroup | src/api/endpoints/group_endpoint.py:159-203 | The group name is checked before the user (each None is 400 with its own message). Then `add_user_to_group(group_name, user)`, then a re-read by the path group name. |
| GroupEndpoint.AddUserToGroupStatuses | src/api/endpoints/group_endpoint.py:196-203 | PrivilegesError 403, GroupNotExistError and UserNotExistError both 404, CommandError 500. |
| GroupEndpoint.RemoveUserFromGroup | src/api/endpoints/group_endpoint.py:206-250 | The same checks and re-read as adding, around `remove_user_from_group(group_name, user)`. |
| GroupEndpoint.RemoveUserFromGroupStatuses | src/api/endpoints/group_endpoint.py:243-250 | PrivilegesError 403, GroupNotExistError and UserNotExistError both 404, CommandError 500. |
| GroupEndpoint.DeleteGroup | src/api/endpoints/group_endpoint.py:253-286 | A None name is 400. Otherwise it makes one `delete_group(name)` call, and success answers status 200. |
| GroupEndpoint.DeleteGroupStatuses | src/api/endpoints/group_endpoint.py:281-286 | PrivilegesError 403, GroupNotExistError 404, CommandError 500. |
| UserEndpoint.MakeLogin | src/api/endpoints/user_endpoint.py:18-32 | Answers 200 with "Welcome " followed by the context's user name and "!", and calls no domain manager. |
| UserEndpoint.GetUsers | src/api/endpoints/user_endpoint.py:35-56 | Makes one `get_users` call. It returns the list unchanged with 200. A failure is 500 exactly when it is a CommandError, and propagates otherwise. |
| UserEndpoint.GetUser | src/api/endpoints/user_endpoint.py:59-91 | A None name is 400 "The user is required." before any call. Otherwise it makes one `get_user(name)` call. |
| UserEndpoint.GetUserStatuses | src/api/endpoints/user_endpoint.py:88-91 | UserNotExistError 404 and CommandError 500 in every shaped hierarchy. |
| UserEndpoint.PostUser | src/api/endpoints/user_endpoint.py:94-134 | A None user or user name is 400. Otherwise it calls `add_user(user)`, then `get_user(user.name)`, and answers that user with 201. |
| UserEndpoint.PostUserStatuses | src/api/endpoints/user_endpoint.py:125-134 | ValueError 400, PrivilegesError 403, GroupNotExistError 400 (not 404), UserExistError 409, CommandError 500. |
| UserEndpoint.ReReadName | src/api/endpoints/user_endpoint.py:173 | The re-read name is the new name when it is present and non-empty, and otherwise the path user. |
| UserEndpoint.PutUser | src/api/endpoints/user_endpoint.py:137-185 | The path user is checked before the changes (each None is 400 with its own message). Then `edit_user(user, changes, changes.password)`, then `get_user` of the re-read name. |
| UserEndpoint.PutUserStatuses | src/api/endpoints/user_endpoint.py:174-185 | ValueError and GroupNotExistError 400, PrivilegesError 403, UserNotExistError 404, UserExistError and UserInUseError 409, CommandError 500. |
| UserEndpoint.ValueErrorFirst | src/api/endpoints/user_endpoint.py:125-126 | In `post_user` and `put_user` (also lines 174-175), ValueError and every subclass of it are 400 under every hierarchy. |
| UserEndpoint.DeleteUser | src/api/endpoints/user_endpoint.py:188-220 | A None name is 400 "The username is required.". Otherwise it makes one `delete_user(name)` call, and success answers status 204. |
| UserEndpoint.DeleteUserStatuses | src/api/endpoints/user_endpoint.py:213-220 | UserNotExistError 404, PrivilegesError 403, UserInUseError 409, CommandError 500. |
| CrontabEndpoint.GetCrontabs | src/api/endpoints/crontab_endpoint.py:16-36 | Makes one `get_cron_jobs` call, whose jobs are the 200 answer unchanged. |
| CrontabEndpoint.GetCrontabsStatuses | src/api/endpoints/crontab_endpoint.py:33-36 | NonexistentCrontabFileError 404, CommandError 500. |
| CrontabEndpoint.AddCrontab | src/api/endpoints/crontab_endpoint.py:39-64 | Makes one `add_cron_job(cron_job)` call. Its answer is the submitted job itself with 201, not a re-read. |
| CrontabEndpoint.AddCrontabStatuses | src/api/endpoints/crontab_endpoint.py:61-64 | InvalidCronFormatError 400, CommandError 500. A NonexistentCrontabFileError is not listed: it propagates unless it derives from CommandError. |
| CrontabEndpoint.UpdateCrontab | src/api/endpoints/crontab_endpoint.py:67-96 | Makes one `edit_cron_job(new, old)` call, new job first, and answers the new job with 200. |
| CrontabEndpoint.UpdateCrontabStatuses | src/api/endpoints/crontab_endpoint.py:91-96 | InvalidCronFormatError 400, NonexistentCrontabFileError 404, CommandError 500. |
| CrontabEndpoint.DeleteCrontab | src/api/endpoints/crontab_endpoint.py:99-119 | Makes one `delete_cron_job(cron_job)` call, and success answers status 204. |
| CrontabEndpoint.DeleteCrontabStatuses | src/api/endpoints/crontab_endpoint.py:116-119 | NonexistentCrontabFileError 404, CommandError 500. |
| GpuEndpoint.GpuQuery | src/api/endpoints/hardware/gpu_endpoint.py:36-43 | `GpuManager.init` runs first. The query is made only when it succeeds. A failure of either stage goes through the same table. |
| GpuEndpoint.GetGpu | src/api/endpoints/hardware/gpu_endpoint.py:17-43 | Calls init and then `get_gpu`. It succeeds exactly when both do, answering the GPU unchanged with 200. |
| GpuEndpoint.GetGpuUse | src/api/endpoints/hardware/gpu_endpoint.py:46-72 | Calls init and then `get_use`, answering the reading unchanged. |
| GpuEndpoint.GetGpuTemperature | src/api/endpoints/hardware/gpu_endpoint.py:75-101 | Calls init and then `get_temperature`, answering the reading unchanged. |
| GpuEndpoint.DeviceFaultIs422 | src/api/endpoints/hardware/gpu_endpoint.py:38-43 | NotValidGpuError and DriverNotFound are 422 under every hierarchy. Both clauses precede the CommandError clause, so a device fault is never reported as 500. |
| GpuEndpoint.GpuStatuses | src/api/endpoints/hardware/gpu_endpoint.py:38-43 | NotValidGpuError 422, DriverNotFound 422, CommandError 500 in every shaped hierarchy. |
| CpuEndpoint.GetCpu | src/api/endpoints/hardware/cpu_endpoint.py:17-38 | Makes one `get_cpu` call and answers its value unchanged with 200. A failure is 500 exactly when it is a CommandError, and propagates otherwise. |
| CpuEndpoint.GetCpuUse | src/api/endpoints/hardware/cpu_endpoint.py:41-62 | Makes one `get_cpu_use` call, with the same single-clause table. |
| CpuEndpoint.GetCpuTemperature | src/api/endpoints/hardware/cpu_endpoint.py:65-86 | Makes one `get_cpu_temperature` call, with the same single-clause table. |
| RamEndpoint.GetRam | src/api/endpoints/hardware/ram_endpoint.py:17-41 | Makes one `get_ram` call and answers the module list unchanged. PrivilegesError is 403 under every hierarchy, because it is listed before CommandError. |
| RamEndpoint.PrivilegesErrorIs403 | src/api/endpoints/hardware/ram_endpoint.py:38-41 | PrivilegesError is answered 403 under every hierarchy, even one in which it derives from CommandError, because its clause comes first. |
| RamEndpoint.GetRamStatuses | src/api/endpoints/hardware/ram_endpoint.py:38-41 | PrivilegesError 403, CommandError 500 in every shaped hierarchy. |
| RamEndpoint.GetRamUse | src/api/endpoints/hardware/ram_endpoint.py:44-66 | Makes one `get_use` call. Its pair becomes a map with exactly the keys "size" (first) and "use" (second). Only CommandError is translated (500); there is no 403. |
| StorageEndpoint.GetDisks | src/api/endpoints/storage_endpoint.py:18-39 | Makes one `get_disks` call and answers the list unchanged with 200, with no shape check. A failure is 500 exactly when it is a CommandError, and propagates otherwise. |
| StorageEndpoint.GetDisksBehindAuthentication | src/api/endpoints/storage_endpoint.py:24 | Behind `auth_user`, `get_disks` is called exactly when the credentials are accepted. A rejected request answers with the dependency's refusal. |
| HostEndpoint.GetHost | src/api/endpoints/host_endpoint.py:18-39 | Makes one `get_host` call and answers the host unchanged with 200, with no shape check. A failure is 500 exactly when it is a CommandError, and propagates otherwise. |
| HostEndpoint.GetHostBehindAuthentication | src/api/endpoints/host_endpoint.py:24 | Behind `auth_user`, `get_host` is called exactly when the credentials are accepted. A rejected request answers with the dependency's refusal. |
| Consistency.GroupNotExistDiffers | src/api/endpoints/user_endpoint.py:129-130 | In every shaped hierarchy, GroupNotExistError is 400 when creating a user but 404 when editing a group (group_endpoint.py:151-152). |
| Consistency.DeleteStatusesDiffer | src/api/endpoints/user_endpoint.py:188-190 | A successful `delete_user` or `delete_crontab` answers 204, while a successful `delete_group` answers 200 (group_endpoint.py:253-256). |

## Left out

- FastAPI routing is not modelled: decorators, path prefixes, `Security`/`Header` injection and
  router wiring. `src/main.py` mounts only `user_router`, so in the application as written only
  the user endpoints are reachable. The model describes every handler regardless.
- The behaviour of the external libraries is not modelled (shell_executor_lib,
  groups_users_lib, crontab_lib, gpu_lib, cpu_lib, ram_lib, storage_lib, host_lib). Each
  manager call is an input outcome, and their values are type parameters.
- The exception hierarchy of those libraries is unknown. The full status tables assume
  `Shaped(h)`. The results about clause order (`FirstCatchWins`, `DeviceFaultIs422`,
  `PrivilegesErrorIs403`, `CommandErrorOnly`, `ValueErrorFirst`) hold for every hierarchy.
- The internals of `base64.b64decode` and UTF-8 decoding are not modelled. Both are
  parameters, because the handler depends only on whether they succeed and on what they
  produce.
- Async scheduling and concurrency between requests are left out.
- The framework's default handling of an exception that escapes a handler or `auth_user` is
  not modelled. `src/main.py` builds a plain `FastAPI()`, whose server-error middleware answers
  such an exception with a generic 500 "Internal Server Error" that omits the failure's text.
  The model stops at `Uncaught(kind)`.
- Pydantic validation and the schemas of User, Group, CronJob, Gpu, Cpu, Disk and Host are
  left out. Their bodies are opaque values, apart from the optional `name` and `password`
  fields that the handlers read.
- Floating-point readings are left out; CPU/GPU use and temperature are opaque values.
- The managers are assumed not to change their arguments in place. Python passes the request
  objects by reference, and some handlers read them after the call:
  - `post_group` and `put_group` re-read the group by `group.name` (group_endpoint.py:101-102,
    145-146);
  - `post_user` re-reads by `user.name` and `put_user` by `user_changes.name`
    (user_endpoint.py:123-124, 172-173);
  - `add_crontab` and `update_crontab` return the job they passed to the manager
    (crontab_endpoint.py:59-60, 89-90).

  The model takes those re-read names and echoed cron jobs from the request values as they
  arrived, so a manager that mutated its argument is not captured.
- The call trace records manager methods only. It does not record building a manager, for
  example `GroupManager(command_manager)`. Six group handlers and two user handlers build
  their manager before the shape check (group_endpoint.py:60, 95, 139, 185, 232, 274;
  user_endpoint.py:117, 163), so in the code a rejected request has still built one.
  `GpuManagerInit` also omits the shell context passed to `GpuManager.init`, which is always
  the dependency's own.
- The exact text of `str(error)` is not modelled. A detail is only "the text of failure f"
  (`Describe(f)`).
- The status codes declared in the decorators (`status_code=...`) are taken as the success
  status. FastAPI's response serialisation is not modelled.
- Unlisted failure classes are the single tag `Other`. `Other` may derive from any class. In
  a shaped hierarchy no named class derives from it. No table names `Other`, so that
  constraint changes no result.

=== FILE: consistency.dfy ===
/** Differences between endpoints that the code has and that the model keeps as written. */
module Consistency {
  import opened Errors
  import opened Gateway
  import GroupEndpoint
  import UserEndpoint
  import CrontabEndpoint

  /** A missing group is a client error (400) when creating a user, but "not found" (404) when
      editing a group, in every shaped hierarchy. */
  lemma GroupNotExistDiffers(h: Subclass)
    requires Shaped(h)
    ensures Raised(h, UserEndpoint.PostUserTable, GroupNotExistError) == HttpError(400, Describe(GroupNotExistError))
    ensures Raised(h, GroupEndpoint.PutGroupTable, GroupNotExistError) == HttpError(404, Describe(GroupNotExistError))
  {
    UserEndpoint.PostUserStatuses(h, GroupNotExistError);
    assert Translate(h, UserEndpoint.PostUserTable, GroupNotExistError) == Handled(400);
    GroupEndpoint.PutGroupStatuses(h, GroupNotExistError);
    assert Translate(h, GroupEndpoint.PutGroupTable, GroupNotExistError) == Handled(404);
  }

  /** A successful group deletion answers 200, while a successful user or cron-job deletion
      answers 204. */
  lemma DeleteStatusesDiffer(h: Subclass, name: string, job: CronJob)
    ensures GroupEndpoint.DeleteGroup(h, Some(name), Ok(())).reply.status == 200
    ensures UserEndpoint.DeleteUser(h, Some(name), Ok(())).reply.status == 204
    ensures CrontabEndpoint.DeleteCrontab(h, job, Ok(())).reply.status == 204
  {
  }
}

=== FILE: cpu_endpoint.dfy ===
/** The `/hardware/cpu` endpoints: one CpuManager call each, and the single clause
    `except CommandError: 500`. */
module CpuEndpoint {
  import opened Errors
  import opened Gateway

  /** `get_cpu`: the CPU description, verbatim. */
  function GetCpu<C>(h: Subclass, cpu: Outcome<C>): (r: Exchange<C>)
    ensures r.calls == [CpuManagerGetCpu]
    ensures cpu.Ok? ==> r.reply == Success(200, cpu.value)
    ensures cpu.Err? ==> r.reply == Refused(
      if IsA(h, cpu.kind, CommandError) then HttpError(500, Describe(cpu.kind)) else Uncaught(cpu.kind))
  {
    Read(h, CpuManagerGetCpu, cpu)
  }

  /** `get_cpu_use`: the reading, verbatim. */
  function GetCpuUse<F>(h: Subclass, use: Outcome<F>): (r: Exchange<F>)
    ensures r.calls == [CpuManagerGetCpuUse]
    ensures use.Ok? ==> r.reply == Success(200, use.value)
    ensures use.Err? ==> r.reply == Refused(
      if IsA(h, use.kind, CommandError) then HttpError(500, Describe(use.kind)) else Uncaught(use.kind))
  {
    Read(h, CpuManagerGetCpuUse, use)
  }

  /** `get_cpu_temperature`: the reading, verbatim. */
  function GetCpuTemperature<F>(h: Subclass, temperature: Outcome<F>): (r: Exchange<F>)
    ensures r.calls == [CpuManagerGetCpuTemperature]
    ensures temperature.Ok? ==> r.reply == Success(200, temperature.value)
    ensures temperature.Err? ==> r.reply == Refused(
      if IsA(h, temperature.kind, CommandError) then HttpError(500, Describe(temperature.kind)) else Uncaught(temperature.kind))
  {
    Read(h, CpuManagerGetCpuTemperature, temperature)
  }
}

=== FILE: crontab_endpoint.dfy ===
/** The `/crontab` endpoints: one CrontabManager call each; add and update answer with the cron
    job they were given, not with a re-read. */
module CrontabEndpoint {
  import opened Errors
  import opened Gateway

  const GetCrontabsTable := [
    Clause({NonexistentCrontabFileError}, 404),
    Clause({CommandError}, 500)
  ]

  const AddCrontabTable := [
    Clause({InvalidCronFormatError}, 400),
    Clause({CommandError}, 500)
  ]

  const UpdateCrontabTable := [
    Clause({InvalidCronFormatError}, 400),
    Clause({NonexistentCrontabFileError}, 404),
    Clause({CommandError}, 500)
  ]

  const DeleteCrontabTable := [
    Clause({NonexistentCrontabFileError}, 404),
    Clause({CommandError}, 500)
  ]

  /** `get_crontabs`: the jobs of the crontab file, verbatim. */
  function GetCrontabs<J>(h: Subclass, jobs: Outcome<seq<J>>): (r: Exchange<seq<J>>)
    ensures r.calls == [CrontabManagerGetCronJobs]
    ensures jobs.Ok? ==> r.reply == Success(200, jobs.value)
    ensures jobs.Err? ==> r.reply == Refused(Raised(h, GetCrontabsTable, jobs.kind))
  {
    Invoke(h, GetCrontabsTable, CrontabManagerGetCronJobs, jobs, 200)
  }

  /** `add_crontab`: the submitted job itself is the answer, with 201. */
  function AddCrontab(h: Subclass, cronJob: CronJob, added: Outcome<()>): (r: Exchange<CronJob>)
    ensures r.calls == [CrontabManagerAddCronJob(cronJob)]
    ensures added.Ok? ==> r.reply == Success(201, cronJob)
    ensures added.Err? ==> r.reply == Refused(Raised(h, AddCrontabTable, added.kind))
  {
    match added
    case Ok(_) => Exchange(Success(201, cronJob), [CrontabManagerAddCronJob(cronJob)])
    case Err(f) => Exchange(Refused(Raised(h, AddCrontabTable, f)), [CrontabManagerAddCronJob(cronJob)])
  }

  /** `update_crontab`: `edit_cron_job` takes the new job first and the old one second; the
      new job is the answer. */
  function UpdateCrontab(h: Subclass, oldCronJob: CronJob, newCronJob: CronJob, edited: Outcome<()>): (r: Exchange<CronJob>)
    ensures r.calls == [CrontabManagerEditCronJob(newCronJob, oldCronJob)]
    ensures edited.Ok? ==> r.reply == Success(200, newCronJob)
    ensures edited.Err? ==> r.reply == Refused(Raised(h, UpdateCrontabTable, edited.kind))
  {
    var call := CrontabManagerEditCronJob(newCronJob, oldCronJob);
    match edited
    case Ok(_) => Exchange(Success(200, newCronJob), [call])
    case Err(f) => Exchange(Refused(Raised(h, UpdateCrontabTable, f)), [call])
  }

  /** `delete_crontab`: no body, and status 204. */
  function DeleteCrontab(h: Subclass, cronJob: CronJob, deleted: Outcome<()>): (r: Exchange<()>)
    ensures r.calls == [CrontabManagerDeleteCronJob(cronJob)]
    ensures r.reply.Success? <==> deleted.Ok?
    ensures r.reply.Success? ==> r.reply.status == 204
    ensures deleted.Err? ==> r.reply == Refused(Raised(h, DeleteCrontabTable, deleted.kind))
  {
    Invoke(h, DeleteCrontabTable, CrontabManagerDeleteCronJob(cronJob), deleted, 204)
  }

  /** The status each crontab endpoint lists for a failure, read off its `except` clauses. */
  function GetCrontabsStatus(f: Failure): Verdict {
    match f
    case NonexistentCrontabFileError => Handled(404)
    case CommandError => Handled(500)
    case _ => Unhandled
  }

  /** `add_crontab` does not list a missing crontab file. */
  function AddCrontabStatus(f: Failure): Verdict {
    match f
    case InvalidCronFormatError => Handled(400)
    case CommandError => Handled(500)
    case _ => Unhandled
  }

  function UpdateCrontabStatus(f: Failure): Verdict {
    match f
    case InvalidCronFormatError => Handled(400)
    case NonexistentCrontabFileError => Handled(404)
    case CommandError => Handled(500)
    case _ => Unhandled
  }

  function DeleteCrontabStatus(f: Failure): Verdict {
    match f
    case NonexistentCrontabFileError => Handled(404)
    case CommandError => Handled(500)
    case _ => Unhandled
  }

  /* In every shaped hierarchy each ordered table gives a named class the status listed for
     it, whether or not that class derives from CommandError; an unlisted class gets 500 when
     it derives from CommandError and propagates otherwise. */

  lemma GetCrontabsStatuses(h: Subclass, f: Failure)
    requires Shaped(h) && Plain(f)
    ensures Translate(h, GetCrontabsTable, f) == OrCommandError(h, f, GetCrontabsStatus(f))
  {
    assert Lookup(GetCrontabsTable, f) == GetCrontabsStatus(f);
    CommandErrorLastIsFallback(h, GetCrontabsTable, f);
  }

  lemma AddCrontabStatuses(h: Subclass, f: Failure)
    requires Shaped(h) && Plain(f)
    ensures Translate(h, AddCrontabTable, f) == OrCommandError(h, f, AddCrontabStatus(f))
  {
    assert Lookup(AddCrontabTable, f) == AddCrontabStatus(f);
    CommandErrorLastIsFallback(h, AddCrontabTable, f);
  }

  lemma UpdateCrontabStatuses(h: Subclass, f: Failure)
    requires Shaped(h) && Plain(f)
    ensures Translate(h, UpdateCrontabTable, f) == OrCommandError(h, f, UpdateCrontabStatus(f))
  {
    assert Lookup(UpdateCrontabTable, f) == UpdateCrontabStatus(f);
    CommandErrorLastIsFallback(h, UpdateCrontabTable, f);
  }

  lemma DeleteCrontabStatuses(h: Subclass, f: Failure)
    requires Shaped(h) && Plain(f)
    ensures Translate(h, DeleteCrontabTable, f) == OrCommandError(h, f, DeleteCrontabStatus(f))
  {
    assert Lookup(DeleteCrontabTable, f) == DeleteCrontabStatus(f);
    CommandErrorLastIsFallback(h, DeleteCrontabTable, f);
  }
}

=== FILE: dependencies.dfy ===
/** The `auth_user` dependency every endpoint declares: it reads the `username` and `password`
    headers, base64- and then UTF-8-decodes the password, and opens a shell context as that
    user with `CommandManager.init`. Decoding is given as two functions, because the endpoint
    only depends on whether each step succeeds; `init`'s answer is an input. */
module Dependencies {
  import opened Errors
  import opened Gateway

  const MissingHeaders := "Required headers are missing."

  /** The `except` list of `auth_user`. */
  const AuthTable := [
    Clause({BinasciiError}, 400),
    Clause({AuthenticationError}, 401),
    Clause({CommandError}, 500)
  ]

  type Bytes = seq<bv8>

  /** The dependency either resolves to the shell context handed to the endpoint, or the
      request ends with the refusal. */
  datatype Resolution = Resolved(manager: CommandManager) | Rejected(refusal: Refusal)

  datatype Authentication = Authentication(resolution: Resolution, calls: seq<Call>)

  /** `auth_user`. `b64decode` is `base64.b64decode` on the header (its failure is the class it
      raises); `utf8decode` is `bytes.decode('utf-8')`, which raises UnicodeDecodeError when it
      fails; `init` is what `CommandManager.init` answers. */
  function AuthUser(h: Subclass, username: Option<string>, password: Option<string>,
                    b64decode: string -> Outcome<Bytes>, utf8decode: Bytes -> Option<string>,
                    init: Outcome<CommandManager>): (r: Authentication)
    // Only an absent header is "missing"; an empty one goes on to decoding.
    ensures r.resolution == Rejected(HttpError(400, Message(MissingHeaders))) <==> username.None? || password.None?
    // init is called exactly when both headers are present and the password decodes, with the
    // username unchanged and the decoded password.
    ensures r.calls != [] <==>
      && username.Some? && password.Some?
      && b64decode(password.value).Ok? && utf8decode(b64decode(password.value).value).Some?
    ensures r.calls != [] ==>
      r.calls == [CommandManagerInit(username.value, utf8decode(b64decode(password.value).value).value)]
    // A base64 failure is a 400 with str(error), before authentication is attempted.
    ensures username.Some? && password.Some? && b64decode(password.value) == Err(BinasciiError) ==>
      r == Authentication(Rejected(HttpError(400, Describe(BinasciiError))), [])
    // On success the dependency value is init's context, unchanged.
    ensures r.resolution.Resolved? <==> r.calls != [] && init.Ok?
    ensures r.resolution.Resolved? ==> r.resolution.manager == init.value
    ensures r.calls != [] && init.Err? ==> r.resolution == Rejected(Raised(h, AuthTable, init.kind))
  {
    if username.None? || password.None? then
      Authentication(Rejected(HttpError(400, Message(MissingHeaders))), [])
    else
      match b64decode(password.value)
      case Err(f) => Authentication(Rejected(Raised(h, AuthTable, f)), [])
      case Ok(bytes) =>
        match utf8decode(bytes)
        case None => Authentication(Rejected(Raised(h, AuthTable, UnicodeDecodeError)), [])
        case Some(secret) =>
          var call := CommandManagerInit(username.value, secret);
          match init
          case Ok(manager) => Authentication(Resolved(manager), [call])
          case Err(f) => Authentication(Rejected(Raised(h, AuthTable, f)), [call])
  }

  /** The status `auth_user`'s `except` list gives each class, read off its clauses. */
  function AuthStatus(f: Failure): Verdict {
    match f
    case BinasciiError => Handled(400)
    case AuthenticationError => Handled(401)
    case CommandError => Handled(500)
    case _ => Unhandled
  }

  /** In every shaped hierarchy the list gives binascii.Error and each plain class its listed
      status (binascii.Error is named by the first clause, so nothing can come before it); an unlisted
      library class gets 500 when it derives from CommandError and propagates otherwise. */
  lemma AuthStatuses(h: Subclass, f: Failure)
    requires Shaped(h) && (Plain(f) || f == BinasciiError)
    ensures Translate(h, AuthTable, f) == OrCommandError(h, f, AuthStatus(f))
  {
    if f == BinasciiError {
      assert IsA(h, f, f);
      FirstCatchWins(h, AuthTable, f, 0);
    } else {
      assert Lookup(AuthTable, f) == AuthStatus(f);
      CommandErrorLastIsFallback(h, AuthTable, f);
    }
  }

  /** A UTF-8 decoding error is a ValueError, not a binascii.Error, so no clause of the list
      catches it in a shaped hierarchy. */
  lemma UnicodeErrorUncaught(h: Subclass)
    requires Shaped(h)
    ensures Translate(h, AuthTable, UnicodeDecodeError) == Unhandled
  {
    DecodingErrorUncaught(h, AuthTable, UnicodeDecodeError);
  }

  /** The decoding failures `auth_user` does not translate, in a shaped hierarchy: a UTF-8 error
      after a valid base64 decode, and the ValueError that b64decode raises for non-ASCII text,
      both propagate before authentication is attempted. */
  lemma AuthUserDecodeFailures(h: Subclass, username: Option<string>, password: Option<string>,
                               b64decode: string -> Outcome<Bytes>, utf8decode: Bytes -> Option<string>,
                               init: Outcome<CommandManager>)
    requires Shaped(h) && username.Some? && password.Some?
    ensures var r := AuthUser(h, username, password, b64decode, utf8decode, init);
      b64decode(password.value).Ok? && utf8decode(b64decode(password.value).value).None? ==>
        r == Authentication(Rejected(Uncaught(UnicodeDecodeError)), [])
    ensures var r := AuthUser(h, username, password, b64decode, utf8decode, init);
      b64decode(password.value) == Err(ValueError) ==>
        r == Authentication(Rejected(Uncaught(ValueError)), [])
  {
    var decoded := b64decode(password.value);
    if decoded.Ok? && utf8decode(decoded.value).None? {
      UnicodeErrorUncaught(h);
    } else if decoded == Err(ValueError) {
      AuthStatuses(h, ValueError);
      assert !h(ValueError, CommandError) by { assert !AllowedEdge(ValueError, CommandError); }
    }
  }

  /** The statuses of `init`'s failures in a shaped hierarchy: a wrong password is 401 and a
      shell fault 500; any other library class is 500 when it derives from CommandError and
      propagates otherwise. */
  lemma AuthUserInitFailures(h: Subclass, username: Option<string>, password: Option<string>,
                             b64decode: string -> Outcome<Bytes>, utf8decode: Bytes -> Option<string>,
                             init: Outcome<CommandManager>)
    requires Shaped(h)
    ensures var r := AuthUser(h, username, password, b64decode, utf8decode, init);
      r.calls != [] && init == Err(AuthenticationError) ==>
        r.resolution == Rejected(HttpError(401, Describe(AuthenticationError)))
    ensures var r := AuthUser(h, username, password, b64decode, utf8decode, init);
      r.calls != [] && init == Err(CommandError) ==>
        r.resolution == Rejected(HttpError(500, Describe(CommandError)))
    ensures var r := AuthUser(h, username, password, b64decode, utf8decode, init);
      r.calls != [] && init.Err? && Library(init.kind) && init.kind != CommandError ==>
        r.resolution == Rejected(if h(init.kind, CommandError) then HttpError(500, Describe(init.kind)) else Uncaught(init.kind))
  {
    if init.Err? && Plain(init.kind) {
      AuthStatuses(h, init.kind);
    }
  }

  /** FastAPI's `Security(auth_user)`: the endpoint runs with the resolved context, and a
      rejected dependency ends the request before the endpoint builds any domain manager. */
  function Serve<T>(auth: Authentication, endpoint: CommandManager -> Exchange<T>): (r: Exchange<T>)
    ensures auth.resolution.Rejected? ==> r == Exchange(Refused(auth.resolution.refusal), auth.calls)
    ensures auth.resolution.Resolved? ==>
      var e := endpoint(auth.resolution.manager);
      r.reply == e.reply && r.calls == auth.calls + e.calls
  {
    match auth.resolution
    case Rejected(refusal) => Exchange(Refused(refusal), auth.calls)
    case Resolved(manager) =>
      var e := endpoint(manager);
      Exchange(e.reply, auth.calls + e.calls)
  }

  /** A request whose credentials are refused makes no call but, at most, `CommandManager.init`. */
  lemma RejectedRequestReachesNoManager<T>(h: Subclass, username: Option<string>, password: Option<string>,
                                           b64decode: string -> Outcome<Bytes>, utf8decode: Bytes -> Option<string>,
                                           init: Outcome<CommandManager>, endpoint: CommandManager -> Exchange<T>)
    requires AuthUser(h, username, password, b64decode, utf8decode, init).resolution.Rejected?
    ensures var r := Serve(AuthUser(h, username, password, b64decode, utf8decode, init), endpoint);
      r.reply.Refused? && |r.calls| <= 1 && forall c :: c in r.calls ==> c.CommandManagerInit?
  {
  }
}

=== FILE: errors.dfy ===
/** The failure kinds the gateway's endpoints name in their `except` clauses, and the
    first-match semantics of an ordered `except` list.

    The classes come from three places: the Python standard library (ValueError,
    binascii.Error, UnicodeDecodeError, multiprocessing.AuthenticationError) and the external
    libraries shell_executor_lib, groups_users_lib, crontab_lib and gpu_lib. The libraries'
    class hierarchy is not visible, so it is a parameter: a `Subclass` relation. */
module Errors {

  datatype Failure =
    // Python standard library
    | ValueError
    | BinasciiError
    | UnicodeDecodeError
    | AuthenticationError
    // shell_executor_lib
    | CommandError
    | PrivilegesError
    // groups_users_lib
    | UserNotExistError
    | GroupNotExistError
    | UserExistError
    | GroupExistError
    | UserInUseError
    // crontab_lib
    | NonexistentCrontabFileError
    | InvalidCronFormatError
    // gpu_lib
    | NotValidGpuError
    | DriverNotFound
    // any exception class not named in these files
    | Other

  predicate Standard(f: Failure) {
    f.ValueError? || f.BinasciiError? || f.UnicodeDecodeError? || f.AuthenticationError?
  }

  /** A class defined by one of the external libraries. */
  predicate Library(f: Failure) {
    !Standard(f) && !f.Other?
  }

  /** A named class whose only possible named ancestor, in a shaped hierarchy, is CommandError. */
  predicate Plain(f: Failure) {
    !f.Other? && !f.BinasciiError? && !f.UnicodeDecodeError?
  }

  /** `h(a, b)` holds when class `a` is a proper subclass of class `b`. */
  type Subclass = (Failure, Failure) -> bool

  /** Python's `isinstance(e, c)` for an exception `e` of class `f`. */
  predicate IsA(h: Subclass, f: Failure, c: Failure) {
    f == c || h(f, c)
  }

  /** The hierarchy in which no named class inherits from another: disjoint tags. */
  function NoSubclass(a: Failure, b: Failure): bool {
    false
  }

  /** The subclass edges a hierarchy may have among the named classes: a library class may
      derive from CommandError, and binascii.Error and UnicodeDecodeError derive from ValueError
      in the standard library. `Other` may derive from any class; in a shaped hierarchy
      no named class derives from it. */
  predicate AllowedEdge(a: Failure, b: Failure) {
    || (Library(a) && a != CommandError && b == CommandError)
    || ((a == BinasciiError || a == UnicodeDecodeError) && b == ValueError)
  }

  ghost predicate Shaped(h: Subclass) {
    forall a, b :: h(a, b) && a != Other ==> AllowedEdge(a, b)
  }

  /** One `except (K1, K2, ...) as e: raise HTTPException(status_code=status, ...)` clause. */
  datatype Clause = Clause(kinds: set<Failure>, status: int)

  predicate Catches(h: Subclass, clause: Clause, f: Failure) {
    exists c :: c in clause.kinds && IsA(h, f, c)
  }

  datatype Verdict = Handled(status: int) | Unhandled

  ghost predicate FirstCatch(h: Subclass, table: seq<Clause>, f: Failure, i: int) {
    && 0 <= i < |table|
    && Catches(h, table[i], f)
    && forall j :: 0 <= j < i ==> !Catches(h, table[j], f)
  }

  /** The status an ordered `except` list gives to an exception of class `f`: the first clause
      that catches it wins; when none does, the exception propagates. */
  function Translate(h: Subclass, table: seq<Clause>, f: Failure): (v: Verdict)
    ensures v.Unhandled? <==> forall i :: 0 <= i < |table| ==> !Catches(h, table[i], f)
    ensures v.Handled? ==> exists i :: FirstCatch(h, table, f, i) && v.status == table[i].status
  {
    if table == [] then Unhandled
    else if Catches(h, table[0], f) then
      assert FirstCatch(h, table, f, 0);
      Handled(table[0].status)
    else
      var rest := Translate(h, table[1..], f);
      assert forall i :: 1 <= i < |table| ==> table[i] == table[1..][i - 1];
      assert rest.Handled? ==> exists i :: FirstCatch(h, table, f, i) && rest.status == table[i].status by {
        if rest.Handled? {
          var k :| FirstCatch(h, table[1..], f, k) && rest.status == table[1..][k].status;
          assert FirstCatch(h, table, f, k + 1);
        }
      }
      rest
  }

  /** The disjoint-tags reading of a table: the first clause that names `f` itself. */
  function Lookup(table: seq<Clause>, f: Failure): (v: Verdict)
  {
    if table == [] then Unhandled
    else if f in table[0].kinds then Handled(table[0].status)
    else Lookup(table[1..], f)
  }

  /** Ordering: the clause that catches first decides, whatever the clauses after it say. */
  lemma {:induction false} FirstCatchWins(h: Subclass, table: seq<Clause>, f: Failure, i: int)
    requires FirstCatch(h, table, f, i)
    ensures Translate(h, table, f) == Handled(table[i].status)
  {
    if i > 0 {
      assert forall j :: 1 <= j < |table| ==> table[j] == table[1..][j - 1];
      FirstCatchWins(h, table[1..], f, i - 1);
    }
  }

  /** With disjoint tags, translation is a lookup of the class's own name. */
  lemma {:induction false} DisjointIsLookup(table: seq<Clause>, f: Failure)
    ensures Translate(NoSubclass, table, f) == Lookup(table, f)
  {
    if table != [] {
      assert Catches(NoSubclass, table[0], f) <==> f in table[0].kinds;
      DisjointIsLookup(table[1..], f);
    }
  }

  /** In a shaped hierarchy a plain class is caught by a clause exactly when the clause names
      it, or names CommandError and the class derives from CommandError. */
  lemma ShapedCatches(h: Subclass, clause: Clause, f: Failure)
    requires Shaped(h) && Plain(f)
    ensures Catches(h, clause, f) <==> f in clause.kinds || (CommandError in clause.kinds && h(f, CommandError))
  {
    if Catches(h, clause, f) && f !in clause.kinds {
      var c :| c in clause.kinds && IsA(h, f, c);
      assert AllowedEdge(f, c);
    }
    if CommandError in clause.kinds && h(f, CommandError) {
      assert IsA(h, f, CommandError);
    }
    if f in clause.kinds {
      assert IsA(h, f, f);
    }
  }

  /** In a shaped hierarchy a plain class is translated by the first clause naming it, as long
      as no clause before that one names CommandError. */
  lemma ShapedFirstNamed(h: Subclass, table: seq<Clause>, f: Failure, i: int)
    requires Shaped(h) && Plain(f) && 0 <= i < |table| && f in table[i].kinds
    requires forall j :: 0 <= j < i ==> f !in table[j].kinds && CommandError !in table[j].kinds
    ensures Translate(h, table, f) == Handled(table[i].status)
  {
    forall j | 0 <= j < i ensures !Catches(h, table[j], f) {
      ShapedCatches(h, table[j], f);
    }
    assert IsA(h, f, f);
    FirstCatchWins(h, table, f, i);
  }

  /** The verdict of a table ending in `except CommandError: 500` for a class the table lists
      with verdict `listed` (Unhandled when it is not listed): the listed status, or else the
      CommandError clause when the class derives from CommandError. */
  function OrCommandError(h: Subclass, f: Failure, listed: Verdict): Verdict {
    if listed.Handled? then listed
    else if h(f, CommandError) then Handled(500)
    else Unhandled
  }

  /** No clause but the last one names CommandError. */
  predicate CommandErrorLast(table: seq<Clause>) {
    forall i :: 0 <= i < |table| - 1 ==> CommandError !in table[i].kinds
  }

  /** "A clause placed before the CommandError clause wins either way": when CommandError is
      caught only by the last clause, a plain class keeps the status of the first clause naming
      it in every shaped hierarchy, whether or not it derives from CommandError; a class the
      table does not name falls to the CommandError clause exactly when it derives from
      CommandError, and propagates otherwise. */
  lemma {:induction false} CommandErrorLastIsFallback(h: Subclass, table: seq<Clause>, f: Failure)
    requires Shaped(h) && Plain(f) && CommandErrorLast(table)
    ensures Translate(h, table, f) ==
      if Lookup(table, f).Handled? then Lookup(table, f)
      else if h(f, CommandError) then Lookup(table, CommandError)
      else Unhandled
  {
    if table != [] {
      ShapedCatches(h, table[0], f);
      var rest := table[1..];
      assert CommandErrorLast(rest) by {
        forall i | 0 <= i < |rest| - 1 ensures CommandError !in rest[i].kinds {
          assert rest[i] == table[i + 1];
        }
      }
      CommandErrorLastIsFallback(h, rest, f);
      if |table| > 1 {
        assert CommandError !in table[0].kinds;
      }
    }
  }

  /** The two decoding errors, outside the plain classes: in a shaped hierarchy their only
      named ancestor is ValueError, so a table that names neither the class nor ValueError lets
      them propagate, even through a CommandError clause. */
  lemma {:induction false} DecodingErrorUncaught(h: Subclass, table: seq<Clause>, f: Failure)
    requires Shaped(h) && (f == BinasciiError || f == UnicodeDecodeError)
    requires forall i :: 0 <= i < |table| ==> f !in table[i].kinds && ValueError !in table[i].kinds
    ensures Translate(h, table, f) == Unhandled
  {
    forall i | 0 <= i < |table| ensures !Catches(h, table[i], f) {
      forall c | c in table[i].kinds ensures !IsA(h, f, c) {
        assert !AllowedEdge(f, c);
      }
    }
  }
}

=== FILE: gateway.dfy ===
/** What every endpoint shares: the request and response values, the calls an endpoint makes
    into the external domain managers, and the step that turns a raised failure into an
    HTTP error through an endpoint's `except` table. */
module Gateway {
  import opened Errors

  datatype Option<+T> = None | Some(value: T)

  /** The answer of one external library call: a value, or the class of the exception it raised. */
  datatype Outcome<+T> = Ok(value: T) | Err(kind: Failure)

  /** The request-scoped shell context returned by `CommandManager.init`; `handle` stands for the
      rest of the library object, which the endpoints never inspect. */
  datatype CommandManager = CommandManager(user: string, handle: nat)

  /** Request bodies. Only the fields the endpoints read are explicit; the rest of each schema
      is carried, uninterpreted, in `fields`. */
  datatype Group = Group(name: Option<string>, fields: map<string, string>)
  datatype User = User(name: Option<string>, password: Option<string>, fields: map<string, string>)
  datatype CronJob = CronJob(fields: map<string, string>)

  /** The library methods the gateway calls, with the arguments it passes. Building a manager
      (`GroupManager(command_manager)` and the like) is not recorded, and neither is the shell
      context handed to `GpuManager.init`. */
  datatype Call =
    | CommandManagerInit(username: string, password: string)
    | GroupManagerGetGroups
    | GroupManagerGetGroup(groupName: string)
    | GroupManagerAddGroup(group: Group)
    | GroupManagerEditGroup(oldName: string, group: Group)
    | GroupManagerAddUserToGroup(toGroup: string, member: string)
    | GroupManagerRemoveUserFromGroup(fromGroup: string, member: string)
    | GroupManagerDeleteGroup(deleted: string)
    | UserManagerGetUsers
    | UserManagerGetUser(userName: string)
    | UserManagerAddUser(user: User)
    | UserManagerEditUser(target: string, changes: User, newPassword: Option<string>)
    | UserManagerDeleteUser(removed: string)
    | CrontabManagerGetCronJobs
    | CrontabManagerAddCronJob(job: CronJob)
    | CrontabManagerEditCronJob(newJob: CronJob, oldJob: CronJob)
    | CrontabManagerDeleteCronJob(dropped: CronJob)
    | GpuManagerInit
    | GpuManagerGetGpu
    | GpuManagerGetUse
    | GpuManagerGetTemperature
    | CpuManagerGetCpu
    | CpuManagerGetCpuUse
    | CpuManagerGetCpuTemperature
    | RamManagerGetRam
    | RamManagerGetUse
    | DiskManagerGetDisks
    | HostManagerGetHost

  /** The `detail` of an HTTPException: a fixed message, or `str(error)` of the caught failure. */
  datatype Detail = Message(text: string) | Describe(kind: Failure)

  /** A request that does not succeed: an HTTPException raised with a status, or a failure no
      `except` clause caught, which propagates out of the endpoint to the framework. */
  datatype Refusal = HttpError(status: int, detail: Detail) | Uncaught(kind: Failure)

  datatype Reply<+T> = Success(status: int, body: T) | Refused(refusal: Refusal)

  /** What an endpoint answers, and the library calls it made, in order. */
  datatype Exchange<+T> = Exchange(reply: Reply<T>, calls: seq<Call>)

  /** `raise HTTPException(400, detail=...)` on a request-shape check, before any library call. */
  function Reject<T>(message: string): (r: Exchange<T>)
    ensures r.reply.Refused? && r.reply.refusal == HttpError(400, Message(message))
    ensures r.calls == []
  {
    Exchange(Refused(HttpError(400, Message(message))), [])
  }

  /** The refusal an exception of class `f` turns into when it reaches the `except` list `table`:
      the status of the first clause that catches it, with `str(error)` as detail, or the
      failure itself when no clause catches it. */
  function Raised(h: Subclass, table: seq<Clause>, f: Failure): (r: Refusal)
    ensures r.HttpError? <==> exists i :: 0 <= i < |table| && Catches(h, table[i], f)
    ensures r.HttpError? ==> r.detail == Describe(f) && exists i :: FirstCatch(h, table, f, i) && r.status == table[i].status
    ensures r.Uncaught? ==> r.kind == f
  {
    match Translate(h, table, f)
    case Handled(status) => HttpError(status, Describe(f))
    case Unhandled => Uncaught(f)
  }

  /** A `try` block holding one library call whose value the endpoint returns unchanged. */
  function Invoke<T>(h: Subclass, table: seq<Clause>, call: Call, answer: Outcome<T>, status: int): (r: Exchange<T>)
    ensures r.calls == [call]
    ensures answer.Ok? ==> r.reply == Success(status, answer.value)
    ensures answer.Err? ==> r.reply == Refused(Raised(h, table, answer.kind))
  {
    match answer
    case Ok(v) => Exchange(Success(status, v), [call])
    case Err(f) => Exchange(Refused(Raised(h, table, f)), [call])
  }

  /** A `try` block holding two library calls in sequence (a change, then a re-read); the
      second is made only when the first returns, and a failure of either goes through the
      same `table`. */
  function Sequence<D, T>(h: Subclass, table: seq<Clause>, first: Call, done: Outcome<D>,
                       second: Call, answer: Outcome<T>, status: int): (r: Exchange<T>)
    ensures done.Err? ==> r == Exchange(Refused(Raised(h, table, done.kind)), [first])
    ensures done.Ok? ==> r.calls == [first, second]
    ensures done.Ok? && answer.Ok? ==> r.reply == Success(status, answer.value)
    ensures done.Ok? && answer.Err? ==> r.reply == Refused(Raised(h, table, answer.kind))
  {
    match done
    case Err(f) => Exchange(Refused(Raised(h, table, f)), [first])
    case Ok(_) => var e := Invoke(h, table, second, answer, status); Exchange(e.reply, [first] + e.calls)
  }

  /** The single clause `except CommandError: 500`, the whole `except` list of the plain read
      endpoints. */
  const CommandErrorTable := [Clause({CommandError}, 500)]

  /** Under every hierarchy, CommandErrorTable answers 500 exactly for CommandError and its
      subclasses and lets every other failure propagate. */
  lemma CommandErrorOnly(h: Subclass, f: Failure)
    ensures Raised(h, CommandErrorTable, f) ==
      if IsA(h, f, CommandError) then HttpError(500, Describe(f)) else Uncaught(f)
  {
    assert Catches(h, CommandErrorTable[0], f) <==> IsA(h, f, CommandError);
  }

  /** A read endpoint: one library call in a `try` whose only clause is `except CommandError`,
      answering the call's value unchanged with 200. */
  function Read<T>(h: Subclass, call: Call, answer: Outcome<T>): (r: Exchange<T>)
    ensures r.calls == [call]
    ensures answer.Ok? ==> r.reply == Success(200, answer.value)
    ensures answer.Err? ==> r.reply == Refused(
      if IsA(h, answer.kind, CommandError) then HttpError(500, Describe(answer.kind)) else Uncaught(answer.kind))
  {
    match answer
    case Ok(v) => Exchange(Success(200, v), [call])
    case Err(f) =>
      CommandErrorOnly(h, f);
      Exchange(Refused(Raised(h, CommandErrorTable, f)), [call])
  }
}

=== FILE: gpu_endpoint.dfy ===
/** The `/hardware/gpu` endpoints: each first builds a GpuManager with `GpuManager.init` and then
    queries it, inside one `try` whose `except` list is the same in all three. */
module GpuEndpoint {
  import opened Errors
  import opened Gateway

  const GpuTable := [
    Clause({NotValidGpuError}, 422),
    Clause({DriverNotFound}, 422),
    Clause({CommandError}, 500)
  ]

  /** Initialise the manager, then make `query`; a failure of either stage goes through
      GpuTable, and the query is not made when initialisation fails. */
  function GpuQuery<M, T>(h: Subclass, init: Outcome<M>, query: Call, answer: Outcome<T>): (r: Exchange<T>)
    ensures init.Err? ==> r == Exchange(Refused(Raised(h, GpuTable, init.kind)), [GpuManagerInit])
    ensures init.Ok? ==> r.calls == [GpuManagerInit, query]
    ensures init.Ok? && answer.Ok? ==> r.reply == Success(200, answer.value)
    ensures init.Ok? && answer.Err? ==> r.reply == Refused(Raised(h, GpuTable, answer.kind))
  {
    Sequence(h, GpuTable, GpuManagerInit, init, query, answer, 200)
  }

  /** `get_gpu`. */
  function GetGpu<M, G>(h: Subclass, init: Outcome<M>, gpu: Outcome<G>): (r: Exchange<G>)
    ensures r.calls == if init.Ok? then [GpuManagerInit, GpuManagerGetGpu] else [GpuManagerInit]
    ensures r.reply.Success? <==> init.Ok? && gpu.Ok?
    ensures r.reply.Success? ==> r.reply == Success(200, gpu.value)
    ensures init.Err? ==> r.reply == Refused(Raised(h, GpuTable, init.kind))
    ensures init.Ok? && gpu.Err? ==> r.reply == Refused(Raised(h, GpuTable, gpu.kind))
  {
    GpuQuery(h, init, GpuManagerGetGpu, gpu)
  }

  /** `get_gpu_use`. */
  function GetGpuUse<M, F>(h: Subclass, init: Outcome<M>, use: Outcome<F>): (r: Exchange<F>)
    ensures r.calls == if init.Ok? then [GpuManagerInit, GpuManagerGetUse] else [GpuManagerInit]
    ensures r.reply.Success? <==> init.Ok? && use.Ok?
    ensures r.reply.Success? ==> r.reply == Success(200, use.value)
    ensures init.Err? ==> r.reply == Refused(Raised(h, GpuTable, init.kind))
    ensures init.Ok? && use.Err? ==> r.reply == Refused(Raised(h, GpuTable, use.kind))
  {
    GpuQuery(h, init, GpuManagerGetUse, use)
  }

  /** `get_gpu_temperature`. */
  function GetGpuTemperature<M, F>(h: Subclass, init: Outcome<M>, temperature: Outcome<F>): (r: Exchange<F>)
    ensures r.calls == if init.Ok? then [GpuManagerInit, GpuManagerGetTemperature] else [GpuManagerInit]
    ensures r.reply.Success? <==> init.Ok? && temperature.Ok?
    ensures r.reply.Success? ==> r.reply == Success(200, temperature.value)
    ensures init.Err? ==> r.reply == Refused(Raised(h, GpuTable, init.kind))
    ensures init.Ok? && temperature.Err? ==> r.reply == Refused(Raised(h, GpuTable, temperature.kind))
  {
    GpuQuery(h, init, GpuManagerGetTemperature, temperature)
  }

  /** A device fault is 422 under EVERY hierarchy: both 422 clauses come before the
      CommandError clause, so even a NotValidGpuError or DriverNotFound that derives from
      CommandError (or from each other) is never reported as 500. */
  lemma DeviceFaultIs422(h: Subclass, f: Failure)
    requires f == NotValidGpuError || f == DriverNotFound
    ensures Translate(h, GpuTable, f) == Handled(422)
  {
    assert IsA(h, f, f);
    if Catches(h, GpuTable[0], f) {
      FirstCatchWins(h, GpuTable, f, 0);
    } else {
      assert f == DriverNotFound;
      assert Catches(h, GpuTable[1], f);
      FirstCatchWins(h, GpuTable, f, 1);
    }
  }

  function GpuStatus(f: Failure): Verdict {
    match f
    case NotValidGpuError => Handled(422)
    case DriverNotFound => Handled(422)
    case CommandError => Handled(500)
    case _ => Unhandled
  }

  /** In every shaped hierarchy the shared table gives each class its listed status. */
  lemma GpuStatuses(h: Subclass, f: Failure)
    requires Shaped(h) && Plain(f)
    ensures Translate(h, GpuTable, f) == OrCommandError(h, f, GpuStatus(f))
  {
    assert Lookup(GpuTable, f) == GpuStatus(f);
    CommandErrorLastIsFallback(h, GpuTable, f);
  }
}

=== FILE: group_endpoint.dfy ===
/** The `/group` endpoints: shape checks on path and body, then one or two GroupManager calls
    (a change followed by a re-read of the group), with each endpoint's own `except` table. */
module GroupEndpoint {
  import opened Errors
  import opened Gateway

  const GroupRequired := "The group is required."
  const UserRequired := "The user is required."

  const GetGroupTable := [
    Clause({GroupNotExistError}, 404),
    Clause({CommandError}, 500)
  ]

  const PostGroupTable := [
    Clause({ValueError}, 400),
    Clause({PrivilegesError}, 403),
    Clause({UserNotExistError}, 404),
    Clause({GroupExistError}, 409),
    Clause({CommandError}, 500)
  ]

  const PutGroupTable := [
    Clause({ValueError}, 400),
    Clause({PrivilegesError}, 403),
    Clause({GroupNotExistError}, 404),
    Clause({GroupExistError}, 409),
    Clause({CommandError}, 500)
  ]

  const AddUserToGroupTable := [
    Clause({PrivilegesError}, 403),
    Clause({GroupNotExistError}, 404),
    Clause({UserNotExistError}, 404),
    Clause({CommandError}, 500)
  ]

  const RemoveUserFromGroupTable := [
    Clause({PrivilegesError}, 403),
    Clause({GroupNotExistError}, 404),
    Clause({UserNotExistError}, 404),
    Clause({CommandError}, 500)
  ]

  const DeleteGroupTable := [
    Clause({PrivilegesError}, 403),
    Clause({GroupNotExistError}, 404),
    Clause({CommandError}, 500)
  ]

  /** `get_groups`: the manager's list, verbatim. */
  function GetGroups<G>(h: Subclass, groups: Outcome<seq<G>>): (r: Exchange<seq<G>>)
    ensures r.calls == [GroupManagerGetGroups]
    ensures groups.Ok? ==> r.reply == Success(200, groups.value)
    ensures groups.Err? ==> r.reply == Refused(
      if IsA(h, groups.kind, CommandError) then HttpError(500, Describe(groups.kind)) else Uncaught(groups.kind))
  {
    Read(h, GroupManagerGetGroups, groups)
  }

  /** `get_group`: a missing name is refused before the manager is asked. */
  function GetGroup<G>(h: Subclass, group: Option<string>, found: Outcome<G>): (r: Exchange<G>)
    ensures group.None? ==> r == Reject(GroupRequired)
    ensures group.Some? ==> r.calls == [GroupManagerGetGroup(group.value)]
    ensures r.reply.Success? <==> group.Some? && found.Ok?
    ensures r.reply.Success? ==> r.reply == Success(200, found.value)
    ensures group.Some? && found.Err? ==> r.reply == Refused(Raised(h, GetGroupTable, found.kind))
  {
    if group.None? then Reject(GroupRequired)
    else Invoke(h, GetGroupTable, GroupManagerGetGroup(group.value), found, 200)
  }

  /** The body of `post_group` and `put_group` must carry a name. */
  predicate Named(group: Option<Group>) {
    group.Some? && group.value.name.Some?
  }

  /** `post_group`: add the group, then answer 201 with the group re-read by its name. */
  function PostGroup<G>(h: Subclass, group: Option<Group>, added: Outcome<()>, reread: Outcome<G>): (r: Exchange<G>)
    ensures !Named(group) ==> r == Reject(GroupRequired)
    ensures Named(group) && added.Err? ==>
      r == Exchange(Refused(Raised(h, PostGroupTable, added.kind)), [GroupManagerAddGroup(group.value)])
    ensures Named(group) && added.Ok? ==>
      r.calls == [GroupManagerAddGroup(group.value), GroupManagerGetGroup(group.value.name.value)]
    ensures Named(group) && added.Ok? && reread.Err? ==>
      r.reply == Refused(Raised(h, PostGroupTable, reread.kind))
    ensures r.reply.Success? <==> Named(group) && added.Ok? && reread.Ok?
    ensures r.reply.Success? ==> r.reply == Success(201, reread.value)
  {
    if !Named(group) then Reject(GroupRequired)
    else
      Sequence(h, PostGroupTable, GroupManagerAddGroup(group.value), added,
               GroupManagerGetGroup(group.value.name.value), reread, 201)
  }

  /** `put_group`: edit the group named in the path, then re-read it by its NEW name. The path
      name is passed on as it is; only the body is checked. */
  function PutGroup<G>(h: Subclass, group: Option<Group>, groupName: string,
                       edited: Outcome<()>, reread: Outcome<G>): (r: Exchange<G>)
    ensures !Named(group) ==> r == Reject(GroupRequired)
    ensures Named(group) && edited.Err? ==>
      r == Exchange(Refused(Raised(h, PutGroupTable, edited.kind)), [GroupManagerEditGroup(groupName, group.value)])
    ensures Named(group) && edited.Ok? ==>
      r.calls == [GroupManagerEditGroup(groupName, group.value), GroupManagerGetGroup(group.value.name.value)]
    ensures Named(group) && edited.Ok? && reread.Err? ==>
      r.reply == Refused(Raised(h, PutGroupTable, reread.kind))
    ensures r.reply.Success? <==> Named(group) && edited.Ok? && reread.Ok?
    ensures r.reply.Success? ==> r.reply == Success(200, reread.value)
  {
    if !Named(group) then Reject(GroupRequired)
    else
      Sequence(h, PutGroupTable, GroupManagerEditGroup(groupName, group.value), edited,
               GroupManagerGetGroup(group.value.name.value), reread, 200)
  }

  /** `add_user_to_group`: the group is checked before the user; the group is re-read by the
      path name. */
  function AddUserToGroup<G>(h: Subclass, groupName: Option<string>, user: Option<string>,
                             joined: Outcome<()>, reread: Outcome<G>): (r: Exchange<G>)
    ensures groupName.None? ==> r == Reject(GroupRequired)
    ensures groupName.Some? && user.None? ==> r == Reject(UserRequired)
    ensures groupName.Some? && user.Some? && joined.Err? ==>
      r == Exchange(Refused(Raised(h, AddUserToGroupTable, joined.kind)),
                    [GroupManagerAddUserToGroup(groupName.value, user.value)])
    ensures groupName.Some? && user.Some? && joined.Ok? ==>
      r.calls == [GroupManagerAddUserToGroup(groupName.value, user.value), GroupManagerGetGroup(groupName.value)]
    ensures groupName.Some? && user.Some? && joined.Ok? && reread.Err? ==>
      r.reply == Refused(Raised(h, AddUserToGroupTable, reread.kind))
    ensures r.reply.Success? <==> groupName.Some? && user.Some? && joined.Ok? && reread.Ok?
    ensures r.reply.Success? ==> r.reply == Success(200, reread.value)
  {
    if groupName.None? then Reject(GroupRequired)
    else if user.None? then Reject(UserRequired)
    else
      Sequence(h, AddUserToGroupTable, GroupManagerAddUserToGroup(groupName.value, user.value), joined,
               GroupManagerGetGroup(groupName.value), reread, 200)
  }

  /** `remove_user_from_group`: the mirror of `add_user_to_group`. */
  function RemoveUserFromGroup<G>(h: Subclass, groupName: Option<string>, user: Option<string>,
                                  left: Outcome<()>, reread: Outcome<G>): (r: Exchange<G>)
    ensures groupName.None? ==> r == Reject(GroupRequired)
    ensures groupName.Some? && user.None? ==> r == Reject(UserRequired)
    ensures groupName.Some? && user.Some? && left.Err? ==>
      r == Exchange(Refused(Raised(h, RemoveUserFromGroupTable, left.kind)),
                    [GroupManagerRemoveUserFromGroup(groupName.value, user.value)])
    ensures groupName.Some? && user.Some? && left.Ok? ==>
      r.calls == [GroupManagerRemoveUserFromGroup(groupName.value, user.value), GroupManagerGetGroup(groupName.value)]
    ensures groupName.Some? && user.Some? && left.Ok? && reread.Err? ==>
      r.reply == Refused(Raised(h, RemoveUserFromGroupTable, reread.kind))
    ensures r.reply.Success? <==> groupName.Some? && user.Some? && left.Ok? && reread.Ok?
    ensures r.reply.Success? ==> r.reply == Success(200, reread.value)
  {
    if groupName.None? then Reject(GroupRequired)
    else if user.None? then Reject(UserRequired)
    else
      Sequence(h, RemoveUserFromGroupTable, GroupManagerRemoveUserFromGroup(groupName.value, user.value), left,
               GroupManagerGetGroup(groupName.value), reread, 200)
  }

  /** `delete_group`: no body, and status 200 (not 204, unlike `delete_user`). */
  function DeleteGroup(h: Subclass, groupName: Option<string>, deleted: Outcome<()>): (r: Exchange<()>)
    ensures groupName.None? ==> r == Reject(GroupRequired)
    ensures groupName.Some? ==> r.calls == [GroupManagerDeleteGroup(groupName.value)]
    ensures r.reply.Success? <==> groupName.Some? && deleted.Ok?
    ensures r.reply.Success? ==> r.reply.status == 200
    ensures groupName.Some? && deleted.Err? ==> r.reply == Refused(Raised(h, DeleteGroupTable, deleted.kind))
  {
    if groupName.None? then Reject(GroupRequired)
    else Invoke(h, DeleteGroupTable, GroupManagerDeleteGroup(groupName.value), deleted, 200)
  }

  /** The status each group endpoint lists for a failure, read off its `except` clauses. */
  function GetGroupStatus(f: Failure): Verdict {
    match f
    case GroupNotExistError => Handled(404)
    case CommandError => Handled(500)
    case _ => Unhandled
  }

  function PostGroupStatus(f: Failure): Verdict {
    match f
    case ValueError => Handled(400)
    case PrivilegesError => Handled(403)
    case UserNotExistError => Handled(404)
    case GroupExistError => Handled(409)
    case CommandError => Handled(500)
    case _ => Unhandled
  }

  function PutGroupStatus(f: Failure): Verdict {
    match f
    case ValueError => Handled(400)
    case PrivilegesError => Handled(403)
    case GroupNotExistError => Handled(404)
    case GroupExistError => Handled(409)
    case CommandError => Handled(500)
    case _ => Unhandled
  }

  /** Shared by `add_user_to_group` and `remove_user_from_group`: both not-exist errors are 404. */
  function MembershipStatus(f: Failure): Verdict {
    match f
    case PrivilegesError => Handled(403)
    case GroupNotExistError => Handled(404)
    case UserNotExistError => Handled(404)
    case CommandError => Handled(500)
    case _ => Unhandled
  }

  function DeleteGroupStatus(f: Failure): Verdict {
    match f
    case PrivilegesError => Handled(403)
    case GroupNotExistError => Handled(404)
    case CommandError => Handled(500)
    case _ => Unhandled
  }

  /* In every shaped hierarchy each ordered table gives a named class the status listed for
     it, whether or not that class derives from CommandError; an unlisted class gets 500 when
     it derives from CommandError and propagates otherwise. */

  lemma GetGroupStatuses(h: Subclass, f: Failure)
    requires Shaped(h) && Plain(f)
    ensures Translate(h, GetGroupTable, f) == OrCommandError(h, f, GetGroupStatus(f))
  {
    assert Lookup(GetGroupTable, f) == GetGroupStatus(f);
    CommandErrorLastIsFallback(h, GetGroupTable, f);
  }

  lemma PostGroupStatuses(h: Subclass, f: Failure)
    requires Shaped(h) && Plain(f)
    ensures Translate(h, PostGroupTable, f) == OrCommandError(h, f, PostGroupStatus(f))
  {
    assert Lookup(PostGroupTable, f) == PostGroupStatus(f);
    CommandErrorLastIsFallback(h, PostGroupTable, f);
  }

  lemma PutGroupStatuses(h: Subclass, f: Failure)
    requires Shaped(h) && Plain(f)
    ensures Translate(h, PutGroupTable, f) == OrCommandError(h, f, PutGroupStatus(f))
  {
    assert Lookup(PutGroupTable, f) == PutGroupStatus(f);
    CommandErrorLastIsFallback(h, PutGroupTable, f);
  }

  lemma AddUserToGroupStatuses(h: Subclass, f: Failure)
    requires Shaped(h) && Plain(f)
    ensures Translate(h, AddUserToGroupTable, f) == OrCommandError(h, f, MembershipStatus(f))
  {
    assert Lookup(AddUserToGroupTable, f) == MembershipStatus(f);
    CommandErrorLastIsFallback(h, AddUserToGroupTable, f);
  }

  lemma RemoveUserFromGroupStatuses(h: Subclass, f: Failure)
    requires Shaped(h) && Plain(f)
    ensures Translate(h, RemoveUserFromGroupTable, f) == OrCommandError(h, f, MembershipStatus(f))
  {
    assert Lookup(RemoveUserFromGroupTable, f) == MembershipStatus(f);
    CommandErrorLastIsFallback(h, RemoveUserFromGroupTable, f);
  }

  lemma DeleteGroupStatuses(h: Subclass, f: Failure)
    requires Shaped(h) && Plain(f)
    ensures Translate(h, DeleteGroupTable, f) == OrCommandError(h, f, DeleteGroupStatus(f))
  {
    assert Lookup(DeleteGroupTable, f) == DeleteGroupStatus(f);
    CommandErrorLastIsFallback(h, DeleteGroupTable, f);
  }

  /** `post_group` and `put_group` list ValueError first, so under EVERY hierarchy a ValueError,
      or any subclass of it such as UnicodeDecodeError, is 400. */
  lemma ValueErrorFirst(h: Subclass, f: Failure)
    requires IsA(h, f, ValueError)
    ensures Translate(h, PostGroupTable, f) == Handled(400)
    ensures Translate(h, PutGroupTable, f) == Handled(400)
  {
    assert Catches(h, PostGroupTable[0], f);
    FirstCatchWins(h, PostGroupTable, f, 0);
    assert Catches(h, PutGroupTable[0], f);
    FirstCatchWins(h, PutGroupTable, f, 0);
  }
}

=== FILE: host_endpoint.dfy ===
/** The `/host` endpoint: one HostManager call behind the `auth_user` dependency. */
module HostEndpoint {
  import opened Errors
  import opened Gateway
  import opened Dependencies

  /** `get_host`: the host description, verbatim; no shape check and no clause but CommandError. */
  function GetHost<H>(h: Subclass, host: Outcome<H>): (r: Exchange<H>)
    ensures r.calls == [HostManagerGetHost]
    ensures host.Ok? ==> r.reply == Success(200, host.value)
    ensures host.Err? ==> r.reply == Refused(
      if IsA(h, host.kind, CommandError) then HttpError(500, Describe(host.kind)) else Uncaught(host.kind))
  {
    Read(h, HostManagerGetHost, host)
  }

  /** Behind `auth_user`, the host is queried exactly when the credentials are accepted; a
      rejected request answers with the dependency's refusal. */
  lemma GetHostBehindAuthentication<H>(h: Subclass, username: Option<string>, password: Option<string>,
                                       b64decode: string -> Outcome<Bytes>, utf8decode: Bytes -> Option<string>,
                                       init: Outcome<CommandManager>, host: Outcome<H>)
    ensures var auth := AuthUser(h, username, password, b64decode, utf8decode, init);
      var r := Serve(auth, (manager: CommandManager) => GetHost(h, host));
      && (HostManagerGetHost in r.calls <==> auth.resolution.Resolved?)
      && (auth.resolution.Rejected? ==> r.reply == Refused(auth.resolution.refusal))
      && (auth.resolution.Resolved? ==> r.reply == GetHost(h, host).reply)
  {
    var auth := AuthUser(h, username, password, b64decode, utf8decode, init);
    assert forall c :: c in auth.calls ==> c.CommandManagerInit?;
  }
}

=== FILE: ram_endpoint.dfy ===
/** The `/hardware/ram` endpoints: the module list (which may need privileges) and the
    size/use pair, returned as a two-key map. */
module RamEndpoint {
  import opened Errors
  import opened Gateway

  const GetRamTable := [
    Clause({PrivilegesError}, 403),
    Clause({CommandError}, 500)
  ]

  /** PrivilegesError is `get_ram`'s first clause, so it is 403 under every hierarchy, even one
      in which it derives from CommandError. */
  lemma PrivilegesErrorIs403(h: Subclass)
    ensures Translate(h, GetRamTable, PrivilegesError) == Handled(403)
  {
    assert IsA(h, PrivilegesError, PrivilegesError);
    FirstCatchWins(h, GetRamTable, PrivilegesError, 0);
  }

  /** `get_ram`: the module list, verbatim; a PrivilegesError is always answered 403. */
  function GetRam<R>(h: Subclass, modules: Outcome<seq<R>>): (r: Exchange<seq<R>>)
    ensures r.calls == [RamManagerGetRam]
    ensures modules.Ok? ==> r.reply == Success(200, modules.value)
    ensures modules.Err? ==> r.reply == Refused(Raised(h, GetRamTable, modules.kind))
    ensures modules == Err(PrivilegesError) ==> r.reply == Refused(HttpError(403, Describe(PrivilegesError)))
  {
    PrivilegesErrorIs403(h);
    Invoke(h, GetRamTable, RamManagerGetRam, modules, 200)
  }

  function GetRamStatus(f: Failure): Verdict {
    match f
    case PrivilegesError => Handled(403)
    case CommandError => Handled(500)
    case _ => Unhandled
  }

  /** In every shaped hierarchy `get_ram`'s table gives each class its listed status. */
  lemma GetRamStatuses(h: Subclass, f: Failure)
    requires Shaped(h) && Plain(f)
    ensures Translate(h, GetRamTable, f) == OrCommandError(h, f, GetRamStatus(f))
  {
    assert Lookup(GetRamTable, f) == GetRamStatus(f);
    CommandErrorLastIsFallback(h, GetRamTable, f);
  }

  /** `get_ram_use`: the manager's `(size, use)` pair becomes `{"size": size, "use": use}`;
      there is no 403 clause here. */
  function GetRamUse(h: Subclass, use: Outcome<(int, int)>): (r: Exchange<map<string, int>>)
    ensures r.calls == [RamManagerGetUse]
    ensures r.reply.Success? <==> use.Ok?
    ensures r.reply.Success? ==>
      && r.reply.status == 200
      && r.reply.body.Keys == {"size", "use"}
      && r.reply.body["size"] == use.value.0
      && r.reply.body["use"] == use.value.1
    ensures use.Err? ==> r.reply == Refused(
      if IsA(h, use.kind, CommandError) then HttpError(500, Describe(use.kind)) else Uncaught(use.kind))
  {
    match use
    case Ok(pair) => Exchange(Success(200, map["size" := pair.0, "use" := pair.1]), [RamManagerGetUse])
    case Err(f) =>
      CommandErrorOnly(h, f);
      Exchange(Refused(Raised(h, CommandErrorTable, f)), [RamManagerGetUse])
  }
}

=== FILE: storage_endpoint.dfy ===
/** The `/storage/disk/` endpoint: one DiskManager call behind the `auth_user` dependency. */
module StorageEndpoint {
  import opened Errors
  import opened Gateway
  import opened Dependencies

  /** `get_disks`: the disk list, verbatim; no shape check and no clause but CommandError. */
  function GetDisks<D>(h: Subclass, disks: Outcome<seq<D>>): (r: Exchange<seq<D>>)
    ensures r.calls == [DiskManagerGetDisks]
    ensures disks.Ok? ==> r.reply == Success(200, disks.value)
    ensures disks.Err? ==> r.reply == Refused(
      if IsA(h, disks.kind, CommandError) then HttpError(500, Describe(disks.kind)) else Uncaught(disks.kind))
  {
    Read(h, DiskManagerGetDisks, disks)
  }

  /** Behind `auth_user`, the disks are listed exactly when the credentials are accepted; a
      rejected request answers with the dependency's refusal. */
  lemma GetDisksBehindAuthentication<D>(h: Subclass, username: Option<string>, password: Option<string>,
                                        b64decode: string -> Outcome<Bytes>, utf8decode: Bytes -> Option<string>,
                                        init: Outcome<CommandManager>, disks: Outcome<seq<D>>)
    ensures var auth := AuthUser(h, username, password, b64decode, utf8decode, init);
      var r := Serve(auth, (manager: CommandManager) => GetDisks(h, disks));
      && (DiskManagerGetDisks in r.calls <==> auth.resolution.Resolved?)
      && (auth.resolution.Rejected? ==> r.reply == Refused(auth.resolution.refusal))
      && (auth.resolution.Resolved? ==> r.reply == GetDisks(h, disks).reply)
  {
    var auth := AuthUser(h, username, password, b64decode, utf8decode, init);
    assert forall c :: c in auth.calls ==> c.CommandManagerInit?;
  }
}

=== FILE: user_endpoint.dfy ===
/** The `/user` endpoints: the login greeting, reads, and the create/edit/delete operations
    with their shape checks, re-reads and `except` tables. */
module UserEndpoint {
  import opened Errors
  import opened Gateway

  const UserRequired := "The user is required."
  const UsernameRequired := "The username is required."
  const ChangesRequired := "The user changes is required."

  const GetUserTable := [
    Clause({UserNotExistError}, 404),
    Clause({CommandError}, 500)
  ]

  const PostUserTable := [
    Clause({ValueError}, 400),
    Clause({PrivilegesError}, 403),
    Clause({GroupNotExistError}, 400),
    Clause({UserExistError}, 409),
    Clause({CommandError}, 500)
  ]

  const PutUserTable := [
    Clause({ValueError, GroupNotExistError}, 400),
    Clause({PrivilegesError}, 403),
    Clause({UserNotExistError}, 404),
    Clause({UserExistError}, 409),
    Clause({UserInUseError}, 409),
    Clause({CommandError}, 500)
  ]

  const DeleteUserTable := [
    Clause({UserNotExistError}, 404),
    Clause({PrivilegesError}, 403),
    Clause({UserInUseError}, 409),
    Clause({CommandError}, 500)
  ]

  /** `make_login`: greets the user the shell context belongs to; no domain manager is used. */
  function MakeLogin(manager: CommandManager): (r: Exchange<string>)
    ensures r.calls == []
    ensures r.reply.Success? && r.reply.status == 200
    ensures var b := r.reply.body;
      |b| == |manager.user| + 9 && b[..8] == "Welcome " && b[8..|b| - 1] == manager.user && b[|b| - 1] == '!'
  {
    Exchange(Success(200, "Welcome " + manager.user + "!"), [])
  }

  /** `get_users`: the manager's list, verbatim. */
  function GetUsers<U>(h: Subclass, users: Outcome<seq<U>>): (r: Exchange<seq<U>>)
    ensures r.calls == [UserManagerGetUsers]
    ensures users.Ok? ==> r.reply == Success(200, users.value)
    ensures users.Err? ==> r.reply == Refused(
      if IsA(h, users.kind, CommandError) then HttpError(500, Describe(users.kind)) else Uncaught(users.kind))
  {
    Read(h, UserManagerGetUsers, users)
  }

  /** `get_user`: a missing name is refused before the manager is asked. */
  function GetUser<U>(h: Subclass, user: Option<string>, found: Outcome<U>): (r: Exchange<U>)
    ensures user.None? ==> r == Reject(UserRequired)
    ensures user.Some? ==> r.calls == [UserManagerGetUser(user.value)]
    ensures r.reply.Success? <==> user.Some? && found.Ok?
    ensures r.reply.Success? ==> r.reply == Success(200, found.value)
    ensures user.Some? && found.Err? ==> r.reply == Refused(Raised(h, GetUserTable, found.kind))
  {
    if user.None? then Reject(UserRequired)
    else Invoke(h, GetUserTable, UserManagerGetUser(user.value), found, 200)
  }

  predicate Named(user: Option<User>) {
    user.Some? && user.value.name.Some?
  }

  /** `post_user`: add the user, then answer 201 with the user re-read by its name. */
  function PostUser<U>(h: Subclass, user: Option<User>, added: Outcome<()>, reread: Outcome<U>): (r: Exchange<U>)
    ensures !Named(user) ==> r == Reject(UserRequired)
    ensures Named(user) && added.Err? ==>
      r == Exchange(Refused(Raised(h, PostUserTable, added.kind)), [UserManagerAddUser(user.value)])
    ensures Named(user) && added.Ok? ==>
      r.calls == [UserManagerAddUser(user.value), UserManagerGetUser(user.value.name.value)]
    ensures Named(user) && added.Ok? && reread.Err? ==>
      r.reply == Refused(Raised(h, PostUserTable, reread.kind))
    ensures r.reply.Success? <==> Named(user) && added.Ok? && reread.Ok?
    ensures r.reply.Success? ==> r.reply == Success(201, reread.value)
  {
    if !Named(user) then Reject(UserRequired)
    else
      Sequence(h, PostUserTable, UserManagerAddUser(user.value), added,
               UserManagerGetUser(user.value.name.value), reread, 201)
  }

  /** The name `put_user` re-reads: the new name when it is truthy (present and not empty),
      otherwise the name in the path. */
  function ReReadName(user: string, changes: User): (name: string)
    ensures changes.name.Some? && changes.name.value != "" ==> name == changes.name.value
    ensures changes.name.None? || changes.name.value == "" ==> name == user
  {
    match changes.name
    case Some(n) => if n != "" then n else user
    case None => user
  }

  /** `put_user`: the path user is checked before the changes; the edit receives the path
      name, the changes and their password, and the user is re-read by `ReReadName`. */
  function PutUser<U>(h: Subclass, user: Option<string>, changes: Option<User>,
                      edited: Outcome<()>, reread: Outcome<U>): (r: Exchange<U>)
    ensures user.None? ==> r == Reject(UsernameRequired)
    ensures user.Some? && changes.None? ==> r == Reject(ChangesRequired)
    ensures user.Some? && changes.Some? && edited.Err? ==>
      r == Exchange(Refused(Raised(h, PutUserTable, edited.kind)),
                    [UserManagerEditUser(user.value, changes.value, changes.value.password)])
    ensures user.Some? && changes.Some? && edited.Ok? ==>
      r.calls == [UserManagerEditUser(user.value, changes.value, changes.value.password),
                  UserManagerGetUser(ReReadName(user.value, changes.value))]
    ensures user.Some? && changes.Some? && edited.Ok? && reread.Err? ==>
      r.reply == Refused(Raised(h, PutUserTable, reread.kind))
    ensures r.reply.Success? <==> user.Some? && changes.Some? && edited.Ok? && reread.Ok?
    ensures r.reply.Success? ==> r.reply == Success(200, reread.value)
  {
    if user.None? then Reject(UsernameRequired)
    else if changes.None? then Reject(ChangesRequired)
    else
      Sequence(h, PutUserTable, UserManagerEditUser(user.value, changes.value, changes.value.password), edited,
               UserManagerGetUser(ReReadName(user.value, changes.value)), reread, 200)
  }

  /** `delete_user`: no body, and status 204. */
  function DeleteUser(h: Subclass, user: Option<string>, deleted: Outcome<()>): (r: Exchange<()>)
    ensures user.None? ==> r == Reject(UsernameRequired)
    ensures user.Some? ==> r.calls == [UserManagerDeleteUser(user.value)]
    ensures r.reply.Success? <==> user.Some? && deleted.Ok?
    ensures r.reply.Success? ==> r.reply.status == 204
    ensures user.Some? && deleted.Err? ==> r.reply == Refused(Raised(h, DeleteUserTable, deleted.kind))
  {
    if user.None? then Reject(UsernameRequired)
    else Invoke(h, DeleteUserTable, UserManagerDeleteUser(user.value), deleted, 204)
  }

  /** The status each user endpoint lists for a failure, read off its `except` clauses. */
  function GetUserStatus(f: Failure): Verdict {
    match f
    case UserNotExistError => Handled(404)
    case CommandError => Handled(500)
    case _ => Unhandled
  }

  /** Creating a user in a group that does not exist is a client error (400), not a 404. */
  function PostUserStatus(f: Failure): Verdict {
    match f
    case ValueError => Handled(400)
    case PrivilegesError => Handled(403)
    case GroupNotExistError => Handled(400)
    case UserExistError => Handled(409)
    case CommandError => Handled(500)
    case _ => Unhandled
  }

  function PutUserStatus(f: Failure): Verdict {
    match f
    case ValueError => Handled(400)
    case GroupNotExistError => Handled(400)
    case PrivilegesError => Handled(403)
    case UserNotExistError => Handled(404)
    case UserExistError => Handled(409)
    case UserInUseError => Handled(409)
    case CommandError => Handled(500)
    case _ => Unhandled
  }

  function DeleteUserStatus(f: Failure): Verdict {
    match f
    case UserNotExistError => Handled(404)
    case PrivilegesError => Handled(403)
    case UserInUseError => Handled(409)
    case CommandError => Handled(500)
    case _ => Unhandled
  }

  /* In every shaped hierarchy each ordered table gives a named class the status listed for
     it, whether or not that class derives from CommandError; an unlisted class gets 500 when
     it derives from CommandError and propagates otherwise. */

  lemma GetUserStatuses(h: Subclass, f: Failure)
    requires Shaped(h) && Plain(f)
    ensures Translate(h, GetUserTable, f) == OrCommandError(h, f, GetUserStatus(f))
  {
    assert Lookup(GetUserTable, f) == GetUserStatus(f);
    CommandErrorLastIsFallback(h, GetUserTable, f);
  }

  lemma PostUserStatuses(h: Subclass, f: Failure)
    requires Shaped(h) && Plain(f)
    ensures Translate(h, PostUserTable, f) == OrCommandError(h, f, PostUserStatus(f))
  {
    assert Lookup(PostUserTable, f) == PostUserStatus(f);
    CommandErrorLastIsFallback(h, PostUserTable, f);
  }

  lemma PutUserStatuses(h: Subclass, f: Failure)
    requires Shaped(h) && Plain(f)
    ensures Translate(h, PutUserTable, f) == OrCommandError(h, f, PutUserStatus(f))
  {
    assert Lookup(PutUserTable, f) == PutUserStatus(f) by {
      if f in PutUserTable[0].kinds {
        assert f == ValueError || f == GroupNotExistError;
      } else {
        assert Lookup(PutUserTable, f) == Lookup(PutUserTable[1..], f);
      }
    }
    CommandErrorLastIsFallback(h, PutUserTable, f);
  }

  lemma DeleteUserStatuses(h: Subclass, f: Failure)
    requires Shaped(h) && Plain(f)
    ensures Translate(h, DeleteUserTable, f) == OrCommandError(h, f, DeleteUserStatus(f))
  {
    assert Lookup(DeleteUserTable, f) == DeleteUserStatus(f);
    CommandErrorLastIsFallback(h, DeleteUserTable, f);
  }

  /** `post_user` and `put_user` list ValueError first, so under EVERY hierarchy a ValueError,
      or any subclass of it such as UnicodeDecodeError, is 400. */
  lemma ValueErrorFirst(h: Subclass, f: Failure)
    requires IsA(h, f, ValueError)
    ensures Translate(h, PostUserTable, f) == Handled(400)
    ensures Translate(h, PutUserTable, f) == Handled(400)
  {
    assert Catches(h, PostUserTable[0], f);
    FirstCatchWins(h, PostUserTable, f, 0);
    assert Catches(h, PutUserTable[0], f);
    FirstCatchWins(h, PutUserTable, f, 0);
  }
}
